=== FILE: README.md ===
# muxcdn in Dafny

A model of the core of muxcdn, a small content-delivery stack written in Go:

- the per-key **TTL cache** that sits in front of the file servers' disk reads (`cache/cache.go`);
- the **file server** with an allow list, a deny list and a default file (`host/main.go`), and the
  **file server** with an allow list only (`main.go`): the access decision, the cache key, and the
  404/200 response with its content type;
- the **extension → content-type table** both servers consult (`typemap.go`);
- the **round-robin load balancer**: loading backends from configuration, cyclic selection of an online
  backend, and the 503 answer (`loadbalancer/main.go`).

Modules, one per source concern:

| file | module | models |
|---|---|---|
| `values.dfy` | `Values` | byte payloads, nil-able errors, `int64` wrap-around |
| `cache.dfy` | `Cache` | the cache table, its two atomic steps, sequential `Get`, and its properties |
| `typemap.dfy` | `TypeMap` | the content-type constants and the extension table |
| `strings.dfy` | `Strings` | `strings.Split`/`strings.Join` on one character, and the last piece of a split |
| `glob.dfy` | `Glob` | the matcher as a parameter, and what "some pattern matches" means |
| `delivery.dfy` | `Delivery` | what both file servers share: `readContent`, content type, 200/404 responses |
| `host_server.dfy` | `HostServer` | `anyMatch`, `deliverContent`, `deliverDefault`, `sendFile` of `host/main.go` |
| `main_server.dfy` | `MainServer` | the deny loop and `deliverContent` of `main.go` |
| `load_balancer.dfy` | `LoadBalancer` | `loadHosts`, `getNextServer`, `getAvailableServer`, `serve` |

How the outside world enters the model:

- **Clock.** `time.Now().UnixNano()` is a parameter: `now` for the read at the lookup, `doneAt` for the
  read after the loader returned. Both are `int64` values, and the staleness test `time + ttl < now`
  is computed with explicit `int64` wrap-around (`Values.WrapInt64`).
- **Loader and disk.** A loader is represented by what it did (`Cache.Loader`: returned a value and an
  error, or panicked). The file servers' loader reads the file named by the key; `disk(f)` says what
  that read does for name `f`.
- **Concurrency.** The locked lookup-and-install (`Cache.Begin`) and the owner's store-and-signal
  (`Cache.Settle`) are atomic steps over an immutable cache value. Entries have identity (ids into a
  heap of entries) because a caller keeps the entry it found even after the key is rebound. Any
  interleaving of callers is a sequence of these steps; `Cache.Read` is what a waiter sees (nothing
  while pending). `Cache.Get` is the sequential composition used by the file servers.
- **Glob matching.** `filepath.Match` is a parameter `glob(pattern, path)` with three outcomes; the
  servers discard the error, so a malformed pattern only ever counts as "no match".
- **Backends.** A backend is its name, URL and online flag. Whether `host.New` succeeds for a URL is
  the parameter `parses`; the online flags are what the health check last wrote.

The inline request handler inside `main` of `main.go` (lines 75-120) is the same logic as its
`deliverContent` over the configuration captured at start-up; `MainServer.DeliverContent` models both.

## Where the code departs from what it evidently intends

The `ready` channel that later callers wait on shows that a load in flight is meant to be shared, and
the recover shows that a panicking load is meant to be survived. The code falls short of or
complicates these intentions in the ways below; the model follows the code in each case.

- **No coalescing of concurrent loads.** A new entry carries the zero time until its loader returns,
  so while it is pending the test `0 + ttl < now` holds for any clock past `ttl` (for a realistic
  `UnixNano` clock, whenever the configured ttl is below the clock's value). A second caller then installs another entry and runs its own load
  (`Cache.PendingEntryCoalescesOnlyUpToTtl`, `Cache.SupersededOwnerKeepsOwnEntry`). Waiting on the
  first load happens only when `now <= ttl` (`Cache.WaiterSeesOwnersResult`).
- **Panicking loader.** The deferred recover closes the ready signal, but the results are unnamed,
  so the caller and all waiters get a nil value and a nil error, not a distinguished error
  (`Cache.PanicReturnsNilAndReloads`). A file server then answers 200 with an empty body.
- **The boundary.** An entry is fresh while `now <= time + ttl`, so the exact deadline still hits,
  and a ttl of 0 still hits within the same nanosecond (`Cache.HitIffWithinTtl`,
  `Cache.ZeroTtlHitsAtSameInstant`).
- **Overflow.** `time + ttl` is `int64` arithmetic; with the largest ttl it wraps to a negative
  number for an entry stamped after time 0, and every lookup of it at a non-negative clock is a miss
  (`Cache.MaximalTtlNeverHits`). An entry stamped 0 (pending, or left by a panicking load) does not
  wrap and is never stale: later callers wait on it, and a panicked load's nil pair is replayed
  (`Cache.MaximalTtlKeepsTimeZeroEntries`).

## Model

| member | source | states |
|---|---|---|
| `Values.WrapInt64` | cache/cache.go:38 | the `int64` sum used by the staleness test: in range, congruent modulo 2^64, and unchanged when no overflow occurs |
| `Values.WrapSumOfInt64` | cache/cache.go:38 | the `int64` sum of two `int64` values is off by exactly one 2^64 when it overflows and exact otherwise |
| `Cache.ResultOf` | cache/cache.go:43-55 | the caller of the loader returns the loader's value and error verbatim, or nil and nil when the loader panicked |
| `Cache.NewCache` | cache/cache.go:30-32 | a new cache has an empty table, no load in flight, and the given timeout |
| `Cache.StaleIffPastDeadline` | cache/cache.go:38 | an entry is stale iff the clock is past `time + ttl`, the deadline wrapped by 2^64 when the sum leaves the `int64` range |
| `Cache.Begin` | cache/cache.go:36-53 | the caller owns a brand-new pending entry, bound under the key and absent before, exactly when the key is absent or stale; otherwise the cache is unchanged and the caller waits on the bound entry |
| `Cache.Settle` | cache/cache.go:43-50 | settling stores the loader's result with the time read after it returned (time 0 after a panic), touches no binding and no other entry |
| `Cache.Read` | cache/cache.go:53-55 | a waiter sees nothing while the entry is pending and the stored pair once it is settled |
| `Cache.Get` | cache/cache.go:35-56 | the loader runs iff the lookup misses and its pair is returned, in a brand-new entry stamped `doneAt` (0 after a panic); a hit changes nothing; afterwards the key is bound to a settled entry holding the returned pair; other bindings and all existing entries are unchanged |
| `Cache.AbsentKeyLoads` | cache/cache.go:37-50 | an absent key is loaded once, its pair returned, and bound to a brand-new entry |
| `Cache.HitIffWithinTtl` | cache/cache.go:38 | a settled entry stamped `t` is a hit iff `now <= t + ttl`, and a hit returns the stored pair |
| `Cache.ResultReplayedWithinTtl` | cache/cache.go:48-55 | a loaded pair, error included, is replayed without loading until `doneAt + ttl`, counted from after the load |
| `Cache.ReloadAfterTtl` | cache/cache.go:38-49 | past `doneAt + ttl` the key is loaded again and the new loader's pair returned |
| `Cache.PanicReturnsNilAndReloads` | cache/cache.go:43-55 | a panicking loader yields nil and nil, leaves a settled entry with time 0, and the next lookup past `ttl` loads again |
| `Cache.PendingEntryCoalescesOnlyUpToTtl` | cache/cache.go:38-39 | while a load is in flight, a second caller waits on it iff `now <= ttl`, and otherwise owns a different new entry |
| `Cache.WaiterSeesOwnersResult` | cache/cache.go:48-55 | a coalesced waiter is blocked until the owner settles and then reads exactly the owner's result |
| `Cache.SupersededOwnerKeepsOwnEntry` | cache/cache.go:39-50 | with two loads in flight, the first owner settles its own superseded entry while the key stays bound to the second, still pending |
| `Cache.MaximalTtlNeverHits` | cache/cache.go:38 | with ttl = max int64 the deadline of an entry stamped after time 0 overflows and every lookup of it at a non-negative clock reloads |
| `Cache.MaximalTtlKeepsTimeZeroEntries` | cache/cache.go:38-39 | with ttl = max int64 an entry stamped 0 is never stale: the caller waits on it and the cache is unchanged |
| `Cache.ZeroTtlHitsAtSameInstant` | cache/cache.go:38 | with ttl 0 a lookup at the entry's own timestamp hits, one nanosecond later misses |
| `TypeMap.Lookup` | typemap.go:78-148 | the 71 keys of the map literal, each with its constant, compared exactly; every key is 2 to 6 characters long and free of "." (so every entry can be the text after a file name's last "."), and any other string is not a key |
| `TypeMap.HtmlAliases` | typemap.go:96-97 | "htm" and "html" both map to "text/html" |
| `TypeMap.OpenXmlMapsToLegacyTypes` | typemap.go:90-91 | "docx", "pptx", "xlsx" share the legacy types of "doc", "ppt", "xls", and no extension maps to an OpenXML type |
| `TypeMap.Woff2MapsToWoff` | typemap.go:138-139 | "woff2" maps to "font/woff", and no extension maps to "font/woff2" |
| `TypeMap.JavaScriptTypes` | typemap.go:102-106 | "js" maps to the sentence-like string, "mjs" to "text/javascript" |
| `TypeMap.XmlTypeHasTrailingSpace` | typemap.go:143 | "xml" maps to "application/xml " ending in a space |
| `TypeMap.JpegSpellings` | typemap.go:101 | only the exact "jpeg" is a key; "jpg", "JPEG", "Jpeg" are not |
| `TypeMap.ThreeGppTypes` | typemap.go:146-147 | "3gp" and "3g2" map to "video/3gpp" and "video/3gpp2" |
| `TypeMap.NoKeyHasSlash` | typemap.go:78-148 | no extension containing "/" is in the table |
| `Strings.Split` | host/main.go:198 | splitting always gives at least one piece and no piece contains the separator |
| `Strings.JoinSplit` | host/main.go:198 | joining the pieces of a split with the separator gives back the string |
| `Strings.SplitJoin` | host/main.go:198 | splitting a join of separator-free pieces gives back the pieces |
| `Strings.LastSegmentIsLast` | host/main.go:198-200 | the last piece of a split is the suffix after the last separator, or the whole string if there is none |
| `Strings.NoSeparatorIsWholeSegment` | main.go:195-200 | a name without "." is its own extension |
| `Delivery.ReadContent` | host/main.go:97-101 | a read is cached under the file name itself; a miss returns what reading that name produced and binds the name to a brand-new entry stamped with the time after the read (0 after a panic); a hit returns the stored pair and leaves the cache as it was; afterwards the name is bound to an entry holding the returned pair; other bindings and every existing entry are unchanged |
| `Delivery.Respond` | host/main.go:193-220 | any read error gives the 404 `text/plain` "404 page not found" response; otherwise 200 with exactly the bytes read, typed by the extension |
| `Delivery.ContentType` | host/main.go:198-209 | the content type is the table entry of the text after the last "." (the whole name when there is none), else "text/html" |
| `Delivery.DoubleExtensionUsesLast` | host/main.go:198-203 | only the last extension of "x.tar.gz" counts, giving "application/gzip" |
| `Delivery.DotlessNameIsItsOwnExtension` | main.go:195-203 | a name without "." is looked up in the table as a whole |
| `Delivery.DottedDirectoryIsHtml` | host/main.go:198-206 | a "." in a directory name with none after it makes the type "text/html" |
| `Delivery.UpperCaseJpegIsHtml` | host/main.go:198-206 | "x.JPG" is typed "text/html": lookup is case-sensitive |
| `HostServer.AnyMatch` | host/main.go:222-230 | true iff some pattern reports a match; false for an empty list; a malformed pattern is a non-match |
| `HostServer.Allowed` | host/main.go:154-159 | allowed iff the allow list matches and the deny list does not |
| `HostServer.SendFile` | host/main.go:193-214 | the answer is the 404 or a 200 built from the pair the cache holds for the file after the read; a fresh cached pair is served with no read and no change to the cache; a miss answers with what the read produced, the nil pair (200, empty body) when it panicked, in a brand-new entry stamped after the read; other bindings and all existing entries are unchanged |
| `HostServer.DeliverContent` | host/main.go:150-175 | a 200 only for a path the allow list matches and the deny list does not, typed by the full path; a refusal is the 404 with the cache untouched; an allowed request is answered from the pair cached under `workingDir + f`, on a miss the result of reading that path; only that binding can change, and every existing entry is kept |
| `HostServer.DeliverDefault` | host/main.go:177-191 | an empty default file gives the 404 without touching the cache; otherwise the default file is read through the shared cache: a fresh entry is served unchanged, a miss answers with the read's result; only the default file's binding can change, and every existing entry is kept |
| `HostServer.BlacklistOverridesWhitelist` | host/main.go:154-166 | a path the deny list matches, or any path when the allow list is empty, gets the 404 and leaves the cache alone |
| `HostServer.AllowedMissReadsFullPath` | host/main.go:154-174 | an allowed uncached request reads and caches `workingDir + f` and answers with exactly what that read produced |
| `HostServer.AllowedHitServesCachedPair` | host/main.go:154-174 | an allowed request whose full path is cached and fresh is answered from the stored pair, with the cache unchanged |
| `HostServer.PanickedReadServesEmptyPage` | host/main.go:194-213 | a read whose loader panics is answered 200 with an empty body, typed by the extension |
| `HostServer.DefaultIgnoresAccessLists` | host/main.go:180-185 | the default file's answer does not depend on the allow or deny list |
| `MainServer.DenyAfter` | main.go:176-183 | the loop ends denying iff it started denying and no pattern matched |
| `MainServer.Denied` | main.go:176-185 | a request is refused iff no allow pattern matches; an empty list refuses everything |
| `MainServer.DeliverContent` | main.go:172-217 | a 200 only for a path the allow list matches, typed by `f`; a refusal is the 404 with the cache untouched; an allowed request is answered from the pair cached under `f`: straight from the cache when that entry is fresh, with the result of reading `f` on a miss; no other key changes, and every existing entry is kept |
| `MainServer.DenyAfterAppend` | main.go:178-183 | the deny loop over `a + b` is the loop over `b` started from the flag the loop over `a` reached |
| `MainServer.MatchIsFinal` | main.go:180-183 | once a pattern matched, later patterns never deny again |
| `MainServer.CacheKeyIsRelativeName` | main.go:177-193 | an allowed uncached request reads and caches the relative `f`, not the checked `workingDir + f`, whose binding and cached entry are left as they were |
| `LoadBalancer.LoadHosts` | loadbalancer/main.go:184-197 | every backend comes from a configured host with a parsing URL and starts offline; there are at most as many backends as hosts |
| `LoadBalancer.LoadHostsAppend` | loadbalancer/main.go:187-195 | hosts are loaded one at a time in configuration order |
| `LoadBalancer.LoadHostsKeepsExactlyParsed` | loadbalancer/main.go:187-195 | a host becomes a backend iff it is configured and its URL parses |
| `LoadBalancer.LoadHostsAllParsed` | loadbalancer/main.go:184-197 | when every URL parses the backends are the hosts, in order |
| `LoadBalancer.GetNextServer` | loadbalancer/main.go:179-182 | the next index is in range for any non-negative index and is the cyclic successor |
| `LoadBalancer.FirstPickIsSecondBackend` | loadbalancer/main.go:180-181 | from the initial index 0 the first backend tried is position 1 |
| `LoadBalancer.LeftoverIndexActsAsRemainder` | loadbalancer/main.go:180 | an index left over from a longer list advances like its remainder modulo the current length |
| `LoadBalancer.StepIsNextProbe` | loadbalancer/main.go:180 | advancing the index by one step lands on the next probe position |
| `LoadBalancer.ProbesCoverAll` | loadbalancer/main.go:170-180 | the `len` probes after any index visit every position |
| `LoadBalancer.ProbesDistinct` | loadbalancer/main.go:170-180 | the `len` probes after any index are pairwise distinct, so with `ProbesCoverAll` each position is probed exactly once |
| `LoadBalancer.GetAvailableServer` | loadbalancer/main.go:169-177 | a returned backend is online; one is returned iff some backend is online; it is the first online one in cyclic order after the index, which it becomes; with none online the index returns to its start; an empty list changes nothing |
| `LoadBalancer.Serve` | loadbalancer/main.go:145-156 | 503 with "503 No Service Available" iff no backend is online; otherwise the request goes to the first online backend in cyclic order after the index, which becomes the new index; after a 503 the index has gone round once to its remainder |

## Left out

- HTTP plumbing: routing, listening, TLS, header and body writing mechanics, and the `logOut` log lines; only the status, content type and body decided by the handlers are modelled.
- `loadConfig` in all three programs, the configuration reload loops in `main`, and process start-up: JSON, files and the console are I/O.
- `loadbalancer/host/host.go`: URL parsing is the `parses` parameter, the reverse proxy is the position of the backend handed the request, and `IsRunning` (a HEAD request) is the online flag.
- `runHealthChecks`: a polling goroutine with a sleep; its effect is whatever online flags the selection is given.
- The mutex, the channel close and wait, and memory ordering: callers are interleavings of the atomic `Cache.Begin` and `Cache.Settle` steps and `Cache.Read`, and visibility is not modelled.
- `filepath.Match` semantics: the matcher is a parameter.
- Races on the global `server`, `lb` and `serverIndex` between concurrent handlers: selection is sequential.
- The 503 answer's `Content-Type` header is set after the status is written, which has no effect, so the model gives that answer no content type.
- A nil `[]byte` and an empty one are both the empty sequence; a Go string is taken as a sequence of characters.
- Cache.Get: requires that no load is in flight, because it is the sequential composition of the steps; a `Get` that finds a pending entry is modelled by `Cache.Begin` returning a waiter followed by `Cache.Read`.
- LoadBalancer.GetNextServer: requires a non-negative index; the global index is never negative, and its overflow is not modelled because it stays below the list length after the first call.

=== FILE: cache.dfy ===
/**
 The per-key TTL cache that both file servers put in front of their disk
 reads.

 The table binds each key to an entry. Entries have identity: a caller that
 decided "miss" or "hit" holds on to the entry it saw, even if the key is
 rebound later, so the model keeps a heap of entries (`entries`) and binds
 keys to entry ids (`table`). A `Get` is split into the two steps that are
 atomic in the source:

 - `Begin`: under the lock, look the key up and either install a brand-new
   pending entry (the caller becomes its owner and will run the loader) or
   keep the existing one (the caller waits on it);
 - `Settle`: the owner stores the loader's result and timestamp and closes
   the entry's ready signal.

 A waiter can read an entry once it is settled (`Read`). The clock is an
 explicit parameter: `now` is the time read at the lookup, `doneAt` the time
 read after the loader returned. A loader is represented by what it did.
 */
module Cache {
  import opened Values

  /** The stored result of one load: a value and a possibly nil error. */
  datatype Outcome = Outcome(value: Bytes, err: Option<Error>)

  /** The zero `result`: nil value, nil error. */
  const ZeroOutcome: Outcome := Outcome([], None)

  /** What one call of the loader did: return a value and an error, or panic. */
  datatype Loader = Returns(value: Bytes, err: Option<Error>) | Panics

  /** An entry is pending until its owner closes the ready signal. */
  datatype Entry = Pending | Settled(res: Outcome, loadedAt: int)

  type EntryId = nat

  /** `table` binds keys to entries, `entries` holds every entry ever created
      (superseded ones included, since waiters may still hold them), `nextId`
      is an id no entry has yet, and `ttl` is the timeout in nanoseconds. */
  datatype Cache = Cache(table: map<string, EntryId>, entries: map<EntryId, Entry>, nextId: EntryId, ttl: int)

  /** Which role a caller took in `Begin`, and the entry it holds. */
  datatype Role = Owner(id: EntryId) | Waiter(id: EntryId)

  datatype Step = Step(cache: Cache, role: Role)

  /** What a sequential `Get` returns, and the cache after it; `loaded` says
      whether the caller ran the loader. */
  datatype Got = Got(cache: Cache, value: Bytes, err: Option<Error>, loaded: bool)

  /** The timestamp of an entry. A pending entry still has the zero time. */
  function Time(e: Entry): int {
    match e
    case Pending => 0
    case Settled(_, t) => t
  }

  predicate Valid(c: Cache) {
    && IsInt64(c.ttl)
    && (forall k :: k in c.table ==> c.table[k] in c.entries)
    && (forall id :: id in c.entries ==> id < c.nextId && IsInt64(Time(c.entries[id])))
  }

  /** No load is in flight: every entry has been settled. */
  predicate Quiescent(c: Cache) {
    forall id :: id in c.entries ==> c.entries[id].Settled?
  }

  /** The result the caller of the loader returns, and stores: the loader's
      own pair, or the zero pair when it panicked. */
  function ResultOf(loader: Loader): (o: Outcome)
    ensures loader.Panics? ==> o == ZeroOutcome
    ensures loader.Returns? ==> o.value == loader.value && o.err == loader.err
  {
    match loader
    case Returns(v, e) => Outcome(v, e)
    case Panics => ZeroOutcome
  }

  function NewCache(timeout: int): (c: Cache)
    requires IsInt64(timeout)
    ensures Valid(c) && Quiescent(c)
    ensures c.table == map[] && c.ttl == timeout
  {
    Cache(map[], map[], 0, timeout)
  }

  /** The staleness test of the lookup: `time + ttl < now` in int64
      arithmetic, so the sum wraps around on overflow. */
  predicate Stale(ttl: int, e: Entry, now: int) {
    WrapInt64(Time(e) + ttl) < now
  }

  /** An entry is stale once `now` is past its deadline `time + ttl`, where
      a deadline beyond the int64 range has wrapped around by 2^64. */
  lemma StaleIffPastDeadline(ttl: int, e: Entry, now: int)
    requires IsInt64(ttl) && IsInt64(Time(e))
    ensures var deadline := Time(e) + ttl;
            Stale(ttl, e, now) <==> if deadline > MaxInt64 then now > deadline - TwoTo64
                                    else if deadline < MinInt64 then now > deadline + TwoTo64
                                    else now > deadline
  {
    WrapSumOfInt64(Time(e), ttl);
  }

  /** The lookup decides "miss": no entry, or a stale one. */
  predicate Misses(c: Cache, key: string, now: int)
    requires Valid(c)
  {
    key !in c.table || Stale(c.ttl, c.entries[c.table[key]], now)
  }

  /** The locked half of `Get`: on a miss install a brand-new pending entry
      under `key`, otherwise leave the cache alone and wait on the entry. */
  function Begin(c: Cache, key: string, now: int): (s: Step)
    requires Valid(c)
    ensures Valid(s.cache) && s.cache.ttl == c.ttl
    ensures key in s.cache.table && s.cache.table[key] == s.role.id
    ensures s.role.Owner? <==> Misses(c, key, now)
    ensures s.role.Owner? ==>
              && s.role.id !in c.entries
              && s.cache.entries == c.entries[s.role.id := Pending]
              && s.cache.table == c.table[key := s.role.id]
    ensures s.role.Waiter? ==> s.cache == c
  {
    if Misses(c, key, now) then
      var id := c.nextId;
      Step(Cache(c.table[key := id], c.entries[id := Pending], id + 1, c.ttl), Owner(id))
    else
      Step(c, Waiter(c.table[key]))
  }

  /** The owner's half of `Get`: store the loader's result and the time read
      after it returned, then signal. A panicking loader leaves the result
      and the time at their zero values, but the signal is still closed. */
  function Settle(c: Cache, id: EntryId, loader: Loader, doneAt: int): (c': Cache)
    requires Valid(c) && id in c.entries && c.entries[id].Pending?
    requires IsInt64(doneAt)
    ensures Valid(c')
    ensures c'.table == c.table && c'.ttl == c.ttl
    ensures c'.entries.Keys == c.entries.Keys
    ensures forall other :: other in c.entries && other != id ==> c'.entries[other] == c.entries[other]
    ensures c'.entries[id].Settled? && c'.entries[id].res == ResultOf(loader)
    ensures loader.Returns? ==> Time(c'.entries[id]) == doneAt
    ensures loader.Panics? ==> Time(c'.entries[id]) == 0
  {
    var e := match loader
      case Returns(_, _) => Settled(ResultOf(loader), doneAt)
      case Panics => Settled(ZeroOutcome, 0);
    Cache(c.table, c.entries[id := e], c.nextId, c.ttl)
  }

  /** What a waiter holding entry `id` sees: nothing while the entry is
      pending (it stays blocked), the stored result once it is settled. */
  function Read(c: Cache, id: EntryId): (r: Option<Outcome>)
    requires id in c.entries
    ensures r.None? <==> c.entries[id].Pending?
    ensures r.Some? ==> r.value == c.entries[id].res
  {
    match c.entries[id]
    case Pending => None
    case Settled(res, _) => Some(res)
  }

  /** A `Get` with no other call in flight: `Begin`, then either run the
      loader and `Settle`, or read the entry found. */
  function Get(c: Cache, key: string, now: int, loader: Loader, doneAt: int): (g: Got)
    requires Valid(c) && Quiescent(c)
    requires IsInt64(doneAt)
    ensures Valid(g.cache) && Quiescent(g.cache) && g.cache.ttl == c.ttl
    ensures g.loaded <==> Misses(c, key, now)
    ensures g.loaded ==> Outcome(g.value, g.err) == ResultOf(loader)
    ensures !g.loaded ==> g.cache == c
    ensures key in g.cache.table
    ensures g.cache.entries[g.cache.table[key]] == Settled(Outcome(g.value, g.err), Time(g.cache.entries[g.cache.table[key]]))
    ensures g.loaded ==>
              && g.cache.table[key] !in c.entries
              && Time(g.cache.entries[g.cache.table[key]]) == (if loader.Panics? then 0 else doneAt)
    ensures forall k :: k in c.table && k != key ==> k in g.cache.table && g.cache.table[k] == c.table[k]
    ensures forall id :: id in c.entries ==> id in g.cache.entries && g.cache.entries[id] == c.entries[id]
  {
    var s := Begin(c, key, now);
    match s.role
    case Owner(id) =>
      var c' := Settle(s.cache, id, loader, doneAt);
      var o := ResultOf(loader);
      Got(c', o.value, o.err, true)
    case Waiter(id) =>
      var o := s.cache.entries[id].res;
      Got(s.cache, o.value, o.err, false)
  }

  /* ---------------------------------------------------------------------
     Properties of the cache
     --------------------------------------------------------------------- */

  /** A key with no entry is a miss: the caller installs a brand-new entry
      under it, runs the loader once and returns the loader's pair. */
  lemma AbsentKeyLoads(c: Cache, key: string, now: int, loader: Loader, doneAt: int)
    requires Valid(c) && Quiescent(c) && IsInt64(doneAt)
    requires key !in c.table
    ensures var g := Get(c, key, now, loader, doneAt);
            && g.loaded
            && Outcome(g.value, g.err) == ResultOf(loader)
            && g.cache.table.Keys == c.table.Keys + {key}
            && g.cache.table[key] !in c.entries
  {
  }

  /** A settled entry whose deadline does not overflow is a hit exactly when
      `now` is at most its time plus the ttl: the comparison is strict, so the
      deadline itself still hits. A hit returns the stored pair. */
  lemma HitIffWithinTtl(c: Cache, key: string, now: int, loader: Loader, doneAt: int)
    requires Valid(c) && Quiescent(c) && IsInt64(doneAt)
    requires key in c.table
    requires IsInt64(Time(c.entries[c.table[key]]) + c.ttl)
    ensures var g := Get(c, key, now, loader, doneAt);
            && (!g.loaded <==> now <= Time(c.entries[c.table[key]]) + c.ttl)
            && (!g.loaded ==> Outcome(g.value, g.err) == c.entries[c.table[key]].res)
  {
  }

  /** What a load returned, error included, is replayed without running the
      loader to every `Get` up to `doneAt + ttl`, where `doneAt` is the time
      read after the loader returned, not the time of the request. */
  lemma ResultReplayedWithinTtl(c: Cache, key: string, now1: int, v: Bytes, err: Option<Error>, doneAt: int,
                                now2: int, loader2: Loader, doneAt2: int)
    requires Valid(c) && Quiescent(c) && IsInt64(doneAt) && IsInt64(doneAt2)
    requires Misses(c, key, now1)
    requires IsInt64(doneAt + c.ttl) && now2 <= doneAt + c.ttl
    ensures var g1 := Get(c, key, now1, Returns(v, err), doneAt);
            var g2 := Get(g1.cache, key, now2, loader2, doneAt2);
            && g1.value == v && g1.err == err
            && !g2.loaded && g2.value == v && g2.err == err
  {
  }

  /** Past `doneAt + ttl` the same key is loaded again. */
  lemma ReloadAfterTtl(c: Cache, key: string, now1: int, v: Bytes, err: Option<Error>, doneAt: int,
                       now2: int, loader2: Loader, doneAt2: int)
    requires Valid(c) && Quiescent(c) && IsInt64(doneAt) && IsInt64(doneAt2)
    requires Misses(c, key, now1)
    requires IsInt64(doneAt + c.ttl) && now2 > doneAt + c.ttl
    ensures var g1 := Get(c, key, now1, Returns(v, err), doneAt);
            var g2 := Get(g1.cache, key, now2, loader2, doneAt2);
            g2.loaded && Outcome(g2.value, g2.err) == ResultOf(loader2)
  {
  }

  /** A panicking loader: the caller gets the nil pair, the entry is settled
      with time 0, and the next `Get` after the ttl (counted from time 0)
      loads again. */
  lemma PanicReturnsNilAndReloads(c: Cache, key: string, now1: int, doneAt: int,
                                  now2: int, loader2: Loader, doneAt2: int)
    requires Valid(c) && Quiescent(c) && IsInt64(doneAt) && IsInt64(doneAt2)
    requires Misses(c, key, now1)
    requires now2 > c.ttl
    ensures var g1 := Get(c, key, now1, Panics, doneAt);
            var g2 := Get(g1.cache, key, now2, loader2, doneAt2);
            && g1.value == [] && g1.err == None
            && g1.cache.entries[g1.cache.table[key]] == Settled(ZeroOutcome, 0)
            && g2.loaded
  {
  }

  /** While a load is in flight its entry has time 0, so a second caller
      waits on it only if `now <= ttl`; for any later clock the second caller
      sees the pending entry as stale and becomes the owner of another
      brand-new entry. Coalescing therefore holds exactly when `now <= ttl`. */
  lemma PendingEntryCoalescesOnlyUpToTtl(c: Cache, key: string, now1: int, now2: int)
    requires Valid(c)
    requires Misses(c, key, now1)
    ensures var s1 := Begin(c, key, now1);
            var s2 := Begin(s1.cache, key, now2);
            && s1.role.Owner?
            && (s2.role == Waiter(s1.role.id) <==> now2 <= c.ttl)
            && (s2.role.Owner? <==> now2 > c.ttl)
            && (s2.role.Owner? ==> s2.role.id != s1.role.id)
  {
  }

  /** Inside the window, the waiter is blocked until the owner settles, and
      then reads exactly the owner's result. */
  lemma WaiterSeesOwnersResult(c: Cache, key: string, now1: int, now2: int, loader: Loader, doneAt: int)
    requires Valid(c) && IsInt64(doneAt)
    requires Misses(c, key, now1)
    requires now2 <= c.ttl
    ensures var s1 := Begin(c, key, now1);
            var s2 := Begin(s1.cache, key, now2);
            && s2.role == Waiter(s1.role.id)
            && Read(s2.cache, s2.role.id) == None
            && Read(Settle(s2.cache, s1.role.id, loader, doneAt), s2.role.id) == Some(ResultOf(loader))
  {
  }

  /** Outside the window, two loads run for one key. The first owner settles
      its own, now superseded, entry and returns its own result; the key stays
      bound to the second owner's entry, which is still pending. */
  lemma SupersededOwnerKeepsOwnEntry(c: Cache, key: string, now1: int, now2: int, loader: Loader, doneAt: int)
    requires Valid(c) && IsInt64(doneAt)
    requires Misses(c, key, now1)
    requires now2 > c.ttl
    ensures var s1 := Begin(c, key, now1);
            var s2 := Begin(s1.cache, key, now2);
            var c3 := Settle(s2.cache, s1.role.id, loader, doneAt);
            && s2.role.Owner?
            && c3.table[key] == s2.role.id
            && c3.entries[s2.role.id] == Pending
            && Read(c3, s1.role.id) == Some(ResultOf(loader))
  {
  }

  /** With the largest int64 ttl the deadline `time + ttl` overflows to a
      negative number for every positive timestamp, so every later `Get`
      at a non-negative clock reloads. */
  lemma MaximalTtlNeverHits(c: Cache, key: string, now: int, loader: Loader, doneAt: int)
    requires Valid(c) && Quiescent(c) && IsInt64(doneAt)
    requires c.ttl == MaxInt64
    requires key in c.table && Time(c.entries[c.table[key]]) > 0
    requires now >= 0
    ensures Get(c, key, now, loader, doneAt).loaded
  {
  }

  /** With the largest int64 ttl an entry stamped 0, pending or left by a
      panicking load, has a deadline that does not overflow, so it is never
      stale: later callers wait on it, and a panicked load's nil pair is
      replayed for as long as the key stays bound. */
  lemma MaximalTtlKeepsTimeZeroEntries(c: Cache, key: string, now: int)
    requires Valid(c) && c.ttl == MaxInt64
    requires key in c.table && Time(c.entries[c.table[key]]) == 0
    requires IsInt64(now)
    ensures !Misses(c, key, now)
    ensures Begin(c, key, now) == Step(c, Waiter(c.table[key]))
  {
  }

  /** With a zero ttl an entry is still a hit for a lookup in the same
      nanosecond as its timestamp; only a later clock reloads. */
  lemma ZeroTtlHitsAtSameInstant(c: Cache, key: string, loader: Loader, doneAt: int)
    requires Valid(c) && Quiescent(c) && IsInt64(doneAt)
    requires c.ttl == 0 && key in c.table
    ensures var t := Time(c.entries[c.table[key]]);
            && !Get(c, key, t, loader, doneAt).loaded
            && Get(c, key, t + 1, loader, doneAt).loaded
  {
  }
}

=== FILE: delivery.dfy ===
/**
 What the two file servers share once a request is allowed: reading the
 file through the cache under its path, and turning the read into a
 response, with the content type chosen from the file name's extension.
 */
module Delivery {
  import opened Values
  import Strings
  import TypeMap
  import Cache

  const TextHtml: string := "text/html"
  const TextPlain: string := "text/plain"
  const NotFoundText: string := "404 page not found"

  datatype Body = Text(text: string) | Data(bytes: Bytes)

  /** The status, the `Content-Type` header and the body written. */
  datatype Response = Response(status: int, contentType: string, body: Body)

  /** The answer to a denied request and to a failed read alike. */
  const NotFound: Response := Response(404, TextPlain, Text(NotFoundText))

  /** The content type of a file: split the name on ".", look the last piece
      up in the type table, and fall back to "text/html". The split always
      has a piece, so the fallback for an empty split is dead code.

      Stated without the split: the type is the table's entry for the text
      after the last "." of the name (the whole name when it has no "."),
      else "text/html". */
  function ContentType(file: string): (t: string)
    ensures forall ext :: Strings.IsLastSegment(ext, file, '.') ==> t == TypeOf(ext)
  {
    var endings := Strings.Split(file, '.');
    if |endings| > 0 then
      var ending := endings[|endings| - 1];
      Strings.LastSegmentIsLast(file, '.');
      assert ending == Strings.LastSegment(file, '.');
      ExtensionIsUnique(ending, file);
      TypeOf(ending)
    else
      assert false; TextHtml
  }

  /** The table's entry for an extension, else "text/html". */
  function TypeOf(ext: string): string {
    match TypeMap.Lookup(ext)
    case Some(t) => t
    case None => TextHtml
  }

  /** Any suffix after the last "." is the one the split finds. */
  lemma ExtensionIsUnique(ending: string, file: string)
    requires Strings.IsLastSegment(ending, file, '.')
    ensures forall ext :: Strings.IsLastSegment(ext, file, '.') ==> ext == ending
  {
    forall ext | Strings.IsLastSegment(ext, file, '.')
      ensures ext == ending
    {
      Strings.LastSegmentUnique(ext, ending, file, '.');
    }
  }

  /** Read a file through the cache: the key is the file name itself and the
      loader reads that same name. `disk(f)` is what reading `f` does. */
  function ReadContent(c: Cache.Cache, file: string, disk: string -> Cache.Loader, now: int, doneAt: int): (g: Cache.Got)
    requires Cache.Valid(c) && Cache.Quiescent(c) && IsInt64(doneAt)
    ensures Cache.Valid(g.cache) && Cache.Quiescent(g.cache)
    ensures file in g.cache.table
    ensures g.loaded <==> Cache.Misses(c, file, now)
    ensures g.loaded ==> Cache.Outcome(g.value, g.err) == Cache.ResultOf(disk(file))
    ensures !g.loaded ==> g.cache == c && Cache.Outcome(g.value, g.err) == c.entries[c.table[file]].res
    ensures g.cache.entries[g.cache.table[file]].res == Cache.Outcome(g.value, g.err)
    ensures forall k :: k in c.table && k != file ==> k in g.cache.table && g.cache.table[k] == c.table[k]
    ensures forall id :: id in c.entries ==> id in g.cache.entries && g.cache.entries[id] == c.entries[id]
    ensures g.loaded ==>
              && g.cache.table[file] !in c.entries
              && Cache.Time(g.cache.entries[g.cache.table[file]]) == (if disk(file).Panics? then 0 else doneAt)
  {
    Cache.Get(c, file, now, disk(file), doneAt)
  }

  /** The response to a read of `file`: any error is a 404, otherwise a 200
      carrying exactly the bytes read, typed by the file's extension. */
  function Respond(file: string, value: Bytes, err: Option<Error>): (r: Response)
    ensures r.status == 200 || r.status == 404
    ensures r.status == 404 <==> err.Some?
    ensures err.Some? ==> r == NotFound
    ensures err.None? ==> r.body == Data(value) && r.contentType == ContentType(file)
  {
    if err.Some? then NotFound
    else Response(200, ContentType(file), Data(value))
  }

  /** Only the last extension of a double extension counts. */
  lemma DoubleExtensionUsesLast(stem: string)
    ensures ContentType(stem + ".tar.gz") == "application/gzip"
  {
    var file := stem + ".tar.gz";
    assert file[|file| - 2..] == "gz" && file[|file| - 3] == '.';
    assert Strings.IsLastSegment("gz", file, '.');
  }

  /** A name without a dot is looked up whole. */
  lemma DotlessNameIsItsOwnExtension(name: string)
    requires '.' !in name
    ensures ContentType(name) == TypeOf(name)
  {
    assert Strings.IsLastSegment(name, name, '.');
  }

  /** A dot in a directory name, with none after it, makes the rest of the
      path the "extension"; it holds a slash, so the type is "text/html". */
  lemma DottedDirectoryIsHtml(dir: string, sub: string, name: string)
    requires '.' !in sub && '.' !in name
    ensures ContentType(dir + "." + sub + "/" + name) == TextHtml
  {
    var file := dir + "." + sub + "/" + name;
    var ext := sub + "/" + name;
    assert file == (dir + ".") + ext;
    assert file[|file| - |ext|..] == ext;
    assert file[|file| - |ext| - 1] == '.';
    assert ext[|sub|] == '/';
    TypeMap.NoKeyHasSlash(ext);
    assert Strings.IsLastSegment(ext, file, '.');
  }

  /** An upper-case extension is not in the table. */
  lemma UpperCaseJpegIsHtml(stem: string)
    ensures ContentType(stem + ".JPG") == TextHtml
  {
    var file := stem + ".JPG";
    assert file[|file| - 3..] == "JPG" && file[|file| - 4] == '.';
    assert Strings.IsLastSegment("JPG", file, '.');
    assert TypeOf("JPG") == TextHtml;
  }
}

=== FILE: glob.dfy ===
/**
 The glob matcher both file servers use for their access lists. Its
 semantics (`filepath.Match`) is not modelled: a matcher is any function
 from a pattern and a path to one of three outcomes.
 */
module Glob {

  /** `filepath.Match` reports a match, no match, or a malformed pattern
      (with a false match flag). */
  datatype GlobOutcome = Match | NoMatch | BadPattern

  /** A matcher, applied as `glob(pattern, path)`. */
  type Matcher = (string, string) -> GlobOutcome

  /** Some pattern in `patterns` matches `path`. A malformed pattern never
      counts as a match. */
  ghost predicate SomeMatch(path: string, patterns: seq<string>, glob: Matcher) {
    exists i :: 0 <= i < |patterns| && glob(patterns[i], path) == Match
  }
}

=== FILE: host_server.dfy ===
/**
 The file server with an allow list, a deny list and a default file. A
 request for `/f` is checked against both lists under the full path
 `workingDir + f`, and an allowed request is read through the cache under
 that same full path. A request for `/` serves the default file with no
 list check.
 */
module HostServer {
  import opened Values
  import opened Glob
  import Cache
  import opened Delivery

  /** The part of the configuration the handlers read. */
  datatype Config = Config(defaultFile: string, whitelist: seq<string>, blacklist: seq<string>)

  /** The configuration, the working directory (with its trailing path
      separator) and the cache. */
  datatype Server = Server(config: Config, workingDir: string, cache: Cache.Cache)

  /** A response and the cache after the request. */
  datatype Served = Served(response: Response, cache: Cache.Cache)

  predicate Ready(s: Server) {
    Cache.Valid(s.cache) && Cache.Quiescent(s.cache)
  }

  /** Some pattern matches `path`; the matcher's error is discarded, so a
      malformed pattern is just a non-match. */
  function AnyMatch(path: string, patterns: seq<string>, glob: Matcher): (r: bool)
    ensures r <==> SomeMatch(path, patterns, glob)
  {
    if |patterns| == 0 then false
    else if glob(patterns[0], path) == Match then true
    else AnyMatch(path, patterns[1..], glob)
  }

  /** Allowed when the allow list matches and the deny list does not: the
      deny list overrides the allow list. */
  function Allowed(cfg: Config, path: string, glob: Matcher): (allow: bool)
    ensures allow <==> SomeMatch(path, cfg.whitelist, glob) && !SomeMatch(path, cfg.blacklist, glob)
  {
    var allow := AnyMatch(path, cfg.whitelist, glob);
    if allow then !AnyMatch(path, cfg.blacklist, glob) else allow
  }

  /** Read `file` through the cache and answer: 404 on any read error,
      otherwise 200 with the bytes and the extension's content type. */
  function SendFile(s: Server, file: string, disk: string -> Cache.Loader, now: int, doneAt: int): (r: Served)
    requires Ready(s) && IsInt64(doneAt)
    ensures Cache.Valid(r.cache) && Cache.Quiescent(r.cache)
    ensures file in r.cache.table
    ensures r.response.status == 200 || r.response == NotFound
    ensures r.response.status == 200 ==> r.response.contentType == ContentType(file)
    ensures var o := r.cache.entries[r.cache.table[file]].res;
            r.response == Respond(file, o.value, o.err)
    ensures !Cache.Misses(s.cache, file, now) ==>
              var o := s.cache.entries[s.cache.table[file]].res;
              r == Served(Respond(file, o.value, o.err), s.cache)
    ensures Cache.Misses(s.cache, file, now) ==>
              var o := Cache.ResultOf(disk(file));
              && r.response == Respond(file, o.value, o.err)
              && r.cache.table[file] !in s.cache.entries
              && Cache.Time(r.cache.entries[r.cache.table[file]]) == (if disk(file).Panics? then 0 else doneAt)
    ensures forall k :: k in s.cache.table && k != file ==> k in r.cache.table && r.cache.table[k] == s.cache.table[k]
    ensures forall id :: id in s.cache.entries ==> id in r.cache.entries && r.cache.entries[id] == s.cache.entries[id]
  {
    var g := ReadContent(s.cache, file, disk, now, doneAt);
    Served(Respond(file, g.value, g.err), g.cache)
  }

  /** The handler for `/f`. */
  function DeliverContent(s: Server, f: string, glob: Matcher, disk: string -> Cache.Loader, now: int, doneAt: int): (r: Served)
    requires Ready(s) && IsInt64(doneAt)
    ensures Cache.Valid(r.cache) && Cache.Quiescent(r.cache)
    ensures r.response.status == 200 || r.response == NotFound
    ensures r.response.status == 200 ==>
              && SomeMatch(s.workingDir + f, s.config.whitelist, glob)
              && !SomeMatch(s.workingDir + f, s.config.blacklist, glob)
              && r.response.contentType == ContentType(s.workingDir + f)
    ensures !Allowed(s.config, s.workingDir + f, glob) ==> r == Served(NotFound, s.cache)
    ensures Allowed(s.config, s.workingDir + f, glob) ==>
              && s.workingDir + f in r.cache.table
              && var o := r.cache.entries[r.cache.table[s.workingDir + f]].res;
                 r.response == Respond(s.workingDir + f, o.value, o.err)
    ensures Allowed(s.config, s.workingDir + f, glob) && Cache.Misses(s.cache, s.workingDir + f, now) ==>
              var o := Cache.ResultOf(disk(s.workingDir + f));
              r.response == Respond(s.workingDir + f, o.value, o.err)
    ensures forall k :: k in s.cache.table && k != s.workingDir + f ==>
              k in r.cache.table && r.cache.table[k] == s.cache.table[k]
    ensures forall id :: id in s.cache.entries ==> id in r.cache.entries && r.cache.entries[id] == s.cache.entries[id]
  {
    var indirName := s.workingDir + f;
    if !Allowed(s.config, indirName, glob) then Served(NotFound, s.cache)
    else SendFile(s, indirName, disk, now, doneAt)
  }

  /** The handler for `/`: no default file is a 404 that leaves the cache
      alone; otherwise the default file is sent, unchecked by the lists. */
  function DeliverDefault(s: Server, disk: string -> Cache.Loader, now: int, doneAt: int): (r: Served)
    requires Ready(s) && IsInt64(doneAt)
    ensures Cache.Valid(r.cache) && Cache.Quiescent(r.cache)
    ensures s.config.defaultFile == "" ==> r == Served(NotFound, s.cache)
    ensures s.config.defaultFile != "" ==>
              && s.config.defaultFile in r.cache.table
              && var o := r.cache.entries[r.cache.table[s.config.defaultFile]].res;
                 r.response == Respond(s.config.defaultFile, o.value, o.err)
    ensures s.config.defaultFile != "" && !Cache.Misses(s.cache, s.config.defaultFile, now) ==>
              var o := s.cache.entries[s.cache.table[s.config.defaultFile]].res;
              r == Served(Respond(s.config.defaultFile, o.value, o.err), s.cache)
    ensures s.config.defaultFile != "" && Cache.Misses(s.cache, s.config.defaultFile, now) ==>
              var o := Cache.ResultOf(disk(s.config.defaultFile));
              r.response == Respond(s.config.defaultFile, o.value, o.err)
    ensures forall k :: k in s.cache.table && k != s.config.defaultFile ==>
              k in r.cache.table && r.cache.table[k] == s.cache.table[k]
    ensures forall id :: id in s.cache.entries ==> id in r.cache.entries && r.cache.entries[id] == s.cache.entries[id]
    ensures r.response.status == 200 ==> r.response.contentType == ContentType(s.config.defaultFile)
  {
    if s.config.defaultFile == "" then Served(NotFound, s.cache)
    else SendFile(s, s.config.defaultFile, disk, now, doneAt)
  }

  /** The deny list wins: a path it matches is refused whatever the allow
      list says, and an empty allow list refuses everything. */
  lemma BlacklistOverridesWhitelist(s: Server, f: string, glob: Matcher, disk: string -> Cache.Loader, now: int, doneAt: int)
    requires Ready(s) && IsInt64(doneAt)
    requires SomeMatch(s.workingDir + f, s.config.blacklist, glob) || |s.config.whitelist| == 0
    ensures DeliverContent(s, f, glob, disk, now, doneAt) == Served(NotFound, s.cache)
  {
  }

  /** An allowed request for a path not in the cache reads the full path
      `workingDir + f`, caches the result under it, and answers with exactly
      what the read produced. */
  lemma AllowedMissReadsFullPath(s: Server, f: string, glob: Matcher, disk: string -> Cache.Loader, now: int, doneAt: int)
    requires Ready(s) && IsInt64(doneAt)
    requires Allowed(s.config, s.workingDir + f, glob)
    requires s.workingDir + f !in s.cache.table
    requires disk(s.workingDir + f).Returns?
    ensures var r := DeliverContent(s, f, glob, disk, now, doneAt);
            var read := disk(s.workingDir + f);
            && s.workingDir + f in r.cache.table
            && r.cache.entries[r.cache.table[s.workingDir + f]].res == Cache.Outcome(read.value, read.err)
            && (read.err.Some? ==> r.response == NotFound)
            && (read.err.None? ==> r.response == Response(200, ContentType(s.workingDir + f), Data(read.value)))
  {
  }

  /** An allowed request whose full path is cached and fresh is answered
      from the cache, with no read and no change to the cache. */
  lemma AllowedHitServesCachedPair(s: Server, f: string, glob: Matcher, disk: string -> Cache.Loader, now: int, doneAt: int)
    requires Ready(s) && IsInt64(doneAt)
    requires Allowed(s.config, s.workingDir + f, glob)
    requires !Cache.Misses(s.cache, s.workingDir + f, now)
    ensures var o := s.cache.entries[s.cache.table[s.workingDir + f]].res;
            DeliverContent(s, f, glob, disk, now, doneAt) == Served(Respond(s.workingDir + f, o.value, o.err), s.cache)
  {
  }

  /** A read that panics is answered as an empty page: the cache hands back
      a nil value and a nil error, so the status is 200. */
  lemma PanickedReadServesEmptyPage(s: Server, file: string, disk: string -> Cache.Loader, now: int, doneAt: int)
    requires Ready(s) && IsInt64(doneAt)
    requires Cache.Misses(s.cache, file, now) && disk(file).Panics?
    ensures SendFile(s, file, disk, now, doneAt).response == Response(200, ContentType(file), Data([]))
  {
  }

  /** Whether the default file is served does not depend on either list. */
  lemma DefaultIgnoresAccessLists(s: Server, whitelist: seq<string>, blacklist: seq<string>,
                                  disk: string -> Cache.Loader, now: int, doneAt: int)
    requires Ready(s) && IsInt64(doneAt)
    ensures var s' := s.(config := s.config.(whitelist := whitelist, blacklist := blacklist));
            DeliverDefault(s', disk, now, doneAt) == DeliverDefault(s, disk, now, doneAt)
  {
  }
}

=== FILE: load_balancer.dfy ===
/**
 The round-robin load balancer. Backends are loaded from the configured
 hosts in order, keeping those whose URL parses; each carries an online flag
 that the periodic health check maintains. A request goes to the first
 online backend after the one chosen last, in cyclic order, or is answered
 with 503 when none is online.

 Selection is modelled over the backends' online flags, with the global
 `serverIndex` passed in and returned. That index starts at 0 and is only
 ever assigned `(serverIndex + 1) % len` with a positive dividend, so it is
 never negative, and Dafny's `%` agrees with Go's on it.
 */
module LoadBalancer {
  import opened Values

  /** A configured host. */
  datatype HostConfig = HostConfig(name: string, url: string)

  /** A backend: name, URL and whether the last health check found it up. */
  datatype Server = Server(name: string, url: string, online: bool)

  /** The answer of the front end: a 503 with a fixed text, or the request
      handed to the backend at position `server`. */
  datatype Reply = Unavailable(status: int, body: string) | Proxied(server: nat)

  const NoServiceText: string := "503 No Service Available"

  /** Build the backends: a host whose URL parses becomes a backend that
      starts offline, a host whose URL does not is skipped. `parses(u)` says
      whether constructing a backend for URL `u` succeeds. */
  function LoadHosts(cfgs: seq<HostConfig>, parses: string -> bool): (hosts: seq<Server>)
    ensures |hosts| <= |cfgs|
    ensures forall i :: 0 <= i < |hosts| ==>
              && !hosts[i].online
              && parses(hosts[i].url)
              && HostConfig(hosts[i].name, hosts[i].url) in cfgs
  {
    if |cfgs| == 0 then []
    else
      var h := cfgs[0];
      var first := if parses(h.url) then [Server(h.name, h.url, false)] else [];
      first + LoadHosts(cfgs[1..], parses)
  }

  /** The position of the `k`-th probe after `index` among `n` backends. */
  function Probe(index: int, k: int, n: int): int
    requires n > 0
  {
    (index + k) % n
  }

  /** Advance the index by one, cyclically, before picking a backend. */
  function GetNextServer(servers: seq<bool>, index: int): (next: int)
    requires |servers| > 0 && 0 <= index
    ensures 0 <= next < |servers|
    ensures index + 1 < |servers| ==> next == index + 1
    ensures index + 1 == |servers| ==> next == 0
  {
    (index + 1) % |servers|
  }

  /** Probe at most `len` backends, advancing the index each time, and
      return the first online one. */
  method GetAvailableServer(servers: seq<bool>, index: int) returns (server: Option<nat>, index': int)
    requires 0 <= index
    ensures server.Some? ==> server.value < |servers| && servers[server.value]
    ensures server.Some? <==> exists j :: 0 <= j < |servers| && servers[j]
    ensures server.Some? ==>
              && index' == server.value
              && exists k :: 1 <= k <= |servers| && Probe(index, k, |servers|) == server.value
                             && forall j :: 1 <= j < k ==> !servers[Probe(index, j, |servers|)]
    ensures |servers| == 0 ==> index' == index
    ensures server.None? && |servers| > 0 ==> index' == index % |servers|
    ensures |servers| > 0 ==> 0 <= index' < |servers|
  {
    index' := index;
    var i := 0;
    while i < |servers|
      invariant 0 <= i <= |servers|
      invariant 0 <= index'
      invariant i == 0 ==> index' == index
      invariant i > 0 ==> index' == Probe(index, i, |servers|)
      invariant forall j :: 1 <= j <= i ==> !servers[Probe(index, j, |servers|)]
    {
      index' := GetNextServer(servers, index');
      if i == 0 {
        assert index' == Probe(index, 1, |servers|);
      } else {
        StepIsNextProbe(index, i, |servers|);
      }
      if servers[index'] {
        return Some(index'), index';
      }
      i := i + 1;
    }
    if |servers| > 0 {
      forall p | 0 <= p < |servers|
        ensures !servers[p]
      {
        var k := ProbesCoverAll(index, |servers|, p);
      }
      ModUnique(index + |servers|, |servers|, index / |servers| + 1, index % |servers|);
    }
    return None, index';
  }

  /** The front end: proxy to an available backend, or answer 503. */
  method Serve(servers: seq<bool>, index: int) returns (reply: Reply, index': int)
    requires 0 <= index
    ensures reply.Unavailable? <==> forall j :: 0 <= j < |servers| ==> !servers[j]
    ensures reply.Unavailable? ==> reply == Unavailable(503, NoServiceText)
    ensures reply.Proxied? ==>
              && reply.server < |servers| && servers[reply.server]
              && index' == reply.server
              && exists k :: 1 <= k <= |servers| && Probe(index, k, |servers|) == reply.server
                             && forall j :: 1 <= j < k ==> !servers[Probe(index, j, |servers|)]
    ensures reply.Unavailable? && |servers| > 0 ==> index' == index % |servers|
    ensures |servers| == 0 ==> index' == index
    ensures |servers| > 0 ==> 0 <= index' < |servers|
  {
    var server;
    server, index' := GetAvailableServer(servers, index);
    if server.None? {
      reply := Unavailable(503, NoServiceText);
    } else {
      reply := Proxied(server.value);
    }
  }

  /* ---------------------------------------------------------------------
     Arithmetic of the cyclic index
     --------------------------------------------------------------------- */

  /** Division with a remainder in range is unique. */
  lemma ModUnique(a: int, n: int, q: int, r: int)
    requires n > 0 && 0 <= r < n && a == q * n + r
    ensures a % n == r && a / n == q
  {
    var d := q - a / n;
    assert d * n == a % n - r;
    assert d == 0;
  }

  /** One more step of `(i + 1) % n` lands on the next probe. */
  lemma StepIsNextProbe(index: int, i: int, n: int)
    requires n > 0 && 0 <= index && i >= 0
    ensures (Probe(index, i, n) + 1) % n == Probe(index, i + 1, n)
  {
    var a := index + i;
    var q := a / n;
    var r := a % n;
    if r + 1 < n {
      ModUnique(r + 1, n, 0, r + 1);
      ModUnique(a + 1, n, q, r + 1);
    } else {
      ModUnique(r + 1, n, 1, 0);
      ModUnique(a + 1, n, q + 1, 0);
    }
  }

  /** The probes `1..n` after any index visit every position. */
  lemma ProbesCoverAll(index: int, n: int, p: int) returns (k: int)
    requires n > 0 && 0 <= index && 0 <= p < n
    ensures 1 <= k <= n && Probe(index, k, n) == p
  {
    var q := index / n;
    var r := index % n;
    if p > r {
      k := p - r;
      ModUnique(index + k, n, q, p);
    } else {
      k := p - r + n;
      ModUnique(index + k, n, q + 1, p);
    }
  }

  /** The probes `1..n` after any index are pairwise distinct, so together
      with `ProbesCoverAll` each position is probed exactly once. */
  lemma ProbesDistinct(index: int, n: int, j: int, k: int)
    requires n > 0 && 0 <= index && 1 <= j < k <= n
    ensures Probe(index, j, n) != Probe(index, k, n)
  {
    var a := index + j;
    var b := index + k;
    var d := b / n - a / n;
    assert b - a - (b % n - a % n) == d * n;
    if d <= 0 {
      assert d * n <= 0;
    } else {
      assert d * n >= n;
    }
  }

  /* ---------------------------------------------------------------------
     Properties of loading and selection
     --------------------------------------------------------------------- */

  /** Loading is done host by host, in order. */
  lemma {:induction false} LoadHostsAppend(a: seq<HostConfig>, b: seq<HostConfig>, parses: string -> bool)
    ensures LoadHosts(a + b, parses) == LoadHosts(a, parses) + LoadHosts(b, parses)
    decreases |a|
  {
    if |a| == 0 {
      assert a + b == b;
    } else {
      assert (a + b)[0] == a[0];
      assert (a + b)[1..] == a[1..] + b;
      LoadHostsAppend(a[1..], b, parses);
    }
  }

  /** A host becomes a backend exactly when it is configured and its URL
      parses. */
  lemma {:induction false} LoadHostsKeepsExactlyParsed(cfgs: seq<HostConfig>, parses: string -> bool, h: HostConfig)
    ensures Server(h.name, h.url, false) in LoadHosts(cfgs, parses) <==> h in cfgs && parses(h.url)
    decreases |cfgs|
  {
    if |cfgs| > 0 {
      LoadHostsKeepsExactlyParsed(cfgs[1..], parses, h);
      assert cfgs == [cfgs[0]] + cfgs[1..];
      assert h in cfgs <==> h == cfgs[0] || h in cfgs[1..];
    }
  }

  /** When every URL parses, the backends are the hosts in order. */
  lemma {:induction false} LoadHostsAllParsed(cfgs: seq<HostConfig>, parses: string -> bool)
    requires forall i :: 0 <= i < |cfgs| ==> parses(cfgs[i].url)
    ensures var hosts := LoadHosts(cfgs, parses);
            && |hosts| == |cfgs|
            && forall i :: 0 <= i < |cfgs| ==> hosts[i] == Server(cfgs[i].name, cfgs[i].url, false)
    decreases |cfgs|
  {
    if |cfgs| > 0 {
      LoadHostsAllParsed(cfgs[1..], parses);
    }
  }

  /** From the initial index 0 the first backend tried is the second one. */
  lemma FirstPickIsSecondBackend(servers: seq<bool>)
    requires |servers| >= 2
    ensures GetNextServer(servers, 0) == 1
  {
  }

  /** An index left over from a longer list behaves like its remainder:
      the next position is the cyclic successor of `index % len`. */
  lemma LeftoverIndexActsAsRemainder(servers: seq<bool>, index: int)
    requires |servers| > 0 && 0 <= index
    ensures GetNextServer(servers, index) == GetNextServer(servers, index % |servers|)
  {
    var n := |servers|;
    ModUnique(index + 1, n, index / n + (index % n + 1) / n, (index % n + 1) % n);
  }
}

=== FILE: main_server.dfy ===
/**
 The file server with an allow list only. A request for `/f` is
 checked under `dir + f`, but read, and cached, under the relative name `f`.
 The same logic appears twice in the source, as a named handler and as an
 inline closure over the loaded configuration; it is modelled once.
 */
module MainServer {
  import opened Values
  import opened Glob
  import Cache
  import opened Delivery

  datatype Config = Config(whitelist: seq<string>)

  /** The configuration, the working directory (with its trailing path
      separator) and the cache. */
  datatype Server = Server(config: Config, workingDir: string, cache: Cache.Cache)

  datatype Served = Served(response: Response, cache: Cache.Cache)

  predicate Ready(s: Server) {
    Cache.Valid(s.cache) && Cache.Quiescent(s.cache)
  }

  /** The deny loop from flag `deny` on: every matching pattern clears the
      flag and nothing sets it again. */
  function DenyAfter(path: string, patterns: seq<string>, glob: Matcher, deny: bool): (r: bool)
    ensures r <==> deny && !SomeMatch(path, patterns, glob)
  {
    if |patterns| == 0 then deny
    else
      var deny' := if glob(patterns[0], path) == Match then false else deny;
      DenyAfter(path, patterns[1..], glob, deny')
  }

  /** The loop starts from "deny": a request is refused unless some allow
      pattern matches, so an empty list refuses everything. */
  function Denied(cfg: Config, path: string, glob: Matcher): (deny: bool)
    ensures deny <==> !SomeMatch(path, cfg.whitelist, glob)
    ensures |cfg.whitelist| == 0 ==> deny
  {
    DenyAfter(path, cfg.whitelist, glob, true)
  }

  /** The handler for `/f`. */
  function DeliverContent(s: Server, f: string, glob: Matcher, disk: string -> Cache.Loader, now: int, doneAt: int): (r: Served)
    requires Ready(s) && IsInt64(doneAt)
    ensures Cache.Valid(r.cache) && Cache.Quiescent(r.cache)
    ensures r.response.status == 200 || r.response == NotFound
    ensures r.response.status == 200 ==>
              SomeMatch(s.workingDir + f, s.config.whitelist, glob) && r.response.contentType == ContentType(f)
    ensures Denied(s.config, s.workingDir + f, glob) ==> r == Served(NotFound, s.cache)
    ensures !Denied(s.config, s.workingDir + f, glob) ==>
              && f in r.cache.table
              && var o := r.cache.entries[r.cache.table[f]].res;
                 r.response == Respond(f, o.value, o.err)
    ensures !Denied(s.config, s.workingDir + f, glob) && Cache.Misses(s.cache, f, now) ==>
              var o := Cache.ResultOf(disk(f));
              r.response == Respond(f, o.value, o.err)
    ensures !Denied(s.config, s.workingDir + f, glob) && !Cache.Misses(s.cache, f, now) ==>
              var o := s.cache.entries[s.cache.table[f]].res;
              r == Served(Respond(f, o.value, o.err), s.cache)
    ensures forall k :: k in s.cache.table && k != f ==> k in r.cache.table && r.cache.table[k] == s.cache.table[k]
    ensures forall id :: id in s.cache.entries ==> id in r.cache.entries && r.cache.entries[id] == s.cache.entries[id]
  {
    var indirName := s.workingDir + f;
    if Denied(s.config, indirName, glob) then Served(NotFound, s.cache)
    else
      var g := ReadContent(s.cache, f, disk, now, doneAt);
      Served(Respond(f, g.value, g.err), g.cache)
  }

  /** The loop is a left fold: running it over `a + b` is running it over
      `a`, then over `b` from the flag reached. */
  lemma {:induction false} DenyAfterAppend(path: string, a: seq<string>, b: seq<string>, glob: Matcher, deny: bool)
    ensures DenyAfter(path, a + b, glob, deny) == DenyAfter(path, b, glob, DenyAfter(path, a, glob, deny))
    decreases |a|
  {
    if |a| > 0 {
      assert (a + b)[0] == a[0];
      assert (a + b)[1..] == a[1..] + b;
      var deny' := if glob(a[0], path) == Match then false else deny;
      DenyAfterAppend(path, a[1..], b, glob, deny');
    } else {
      assert a + b == b;
    }
  }

  /** Once a pattern has matched, later patterns, matching or not, never
      deny again. */
  lemma MatchIsFinal(path: string, a: seq<string>, b: seq<string>, glob: Matcher)
    requires SomeMatch(path, a, glob)
    ensures !DenyAfter(path, a + b, glob, true)
  {
    DenyAfterAppend(path, a, b, glob, true);
  }

  /** An allowed request for a name not in the cache reads the relative
      name `f`, not the checked path `workingDir + f`, and caches it under
      `f`; any cached entry for `workingDir + f` is left as it was. */
  lemma CacheKeyIsRelativeName(s: Server, f: string, glob: Matcher, disk: string -> Cache.Loader, now: int, doneAt: int)
    requires Ready(s) && IsInt64(doneAt)
    requires !Denied(s.config, s.workingDir + f, glob)
    requires f !in s.cache.table && s.workingDir != ""
    requires disk(f).Returns?
    ensures var r := DeliverContent(s, f, glob, disk, now, doneAt);
            && f in r.cache.table
            && r.cache.entries[r.cache.table[f]].res == Cache.Outcome(disk(f).value, disk(f).err)
            && (disk(f).err.Some? ==> r.response == NotFound)
            && (disk(f).err.None? ==> r.response == Response(200, ContentType(f), Data(disk(f).value)))
            && (s.workingDir + f in s.cache.table ==>
                  && s.workingDir + f in r.cache.table
                  && r.cache.table[s.workingDir + f] == s.cache.table[s.workingDir + f]
                  && r.cache.entries[r.cache.table[s.workingDir + f]] == s.cache.entries[s.cache.table[s.workingDir + f]])
  {
  }
}

=== FILE: strings.dfy ===
/**
 Go's `strings.Split` for a one-character separator, its inverse
 `strings.Join`, and the last piece of a split, which is how both file
 servers find a file's extension.
 */
module Strings {

  /** `strings.Split(s, [sep])`: the pieces of `s` between occurrences of
      `sep`. There is always at least one piece (the empty string splits to
      `[""]`) and no piece contains the separator. */
  function Split(s: string, sep: char): (parts: seq<string>)
    ensures |parts| >= 1
    ensures forall i :: 0 <= i < |parts| ==> sep !in parts[i]
    decreases |s|
  {
    if |s| == 0 then [""]
    else
      var rest := Split(s[1..], sep);
      if s[0] == sep then [""] + rest
      else [[s[0]] + rest[0]] + rest[1..]
  }

  /** `strings.Join(parts, [sep])`. */
  function Join(parts: seq<string>, sep: char): (s: string)
    requires |parts| >= 1
    ensures |s| >= |parts| - 1
  {
    if |parts| == 1 then parts[0]
    else parts[0] + [sep] + Join(parts[1..], sep)
  }

  /** The last piece of a split. */
  function LastSegment(s: string, sep: char): (ext: string)
  {
    var parts := Split(s, sep);
    parts[|parts| - 1]
  }

  /** `ext` is what follows the last `sep` in `s`, or all of `s` when `s`
      has no `sep`: a suffix free of `sep` that is either all of `s` or
      directly preceded by `sep`. */
  predicate IsLastSegment(ext: string, s: string, sep: char) {
    && |ext| <= |s|
    && s[|s| - |ext|..] == ext
    && sep !in ext
    && (|ext| == |s| || s[|s| - |ext| - 1] == sep)
  }

  /** Joining the pieces of a split gives back the string. */
  lemma {:induction false} JoinSplit(s: string, sep: char)
    ensures Join(Split(s, sep), sep) == s
    decreases |s|
  {
    if |s| > 0 {
      var rest := Split(s[1..], sep);
      JoinSplit(s[1..], sep);
      if s[0] == sep {
        assert Split(s, sep) == [""] + rest;
        assert (["" ] + rest)[1..] == rest;
      } else {
        var parts := Split(s, sep);
        assert parts == [[s[0]] + rest[0]] + rest[1..];
        if |rest| == 1 {
          assert parts == [[s[0]] + rest[0]];
        } else {
          assert parts[1..] == rest[1..];
          assert Join(rest, sep) == rest[0] + [sep] + Join(rest[1..], sep);
        }
      }
    }
  }

  /** A separator-free prefix glues onto the first piece of what follows. */
  lemma {:induction false} SplitPrefix(a: string, t: string, sep: char)
    requires sep !in a
    ensures Split(a + t, sep) == [a + Split(t, sep)[0]] + Split(t, sep)[1..]
    decreases |a|
  {
    if |a| > 0 {
      assert (a + t)[1..] == a[1..] + t;
      assert (a + t)[0] == a[0];
      SplitPrefix(a[1..], t, sep);
      assert [a[0]] + (a[1..] + Split(t, sep)[0]) == a + Split(t, sep)[0];
    } else {
      var parts := Split(t, sep);
      assert a + t == t;
      assert a + parts[0] == parts[0];
      assert parts == [parts[0]] + parts[1..];
    }
  }

  /** Splitting a join of separator-free pieces gives back the pieces. */
  lemma {:induction false} SplitJoin(parts: seq<string>, sep: char)
    requires |parts| >= 1
    requires forall i :: 0 <= i < |parts| ==> sep !in parts[i]
    ensures Split(Join(parts, sep), sep) == parts
    decreases |parts|
  {
    if |parts| == 1 {
      SplitPrefix(parts[0], "", sep);
      assert parts[0] + "" == parts[0];
    } else {
      var tail := Join(parts[1..], sep);
      SplitJoin(parts[1..], sep);
      var rest := [sep] + tail;
      assert Join(parts, sep) == parts[0] + rest;
      SplitPrefix(parts[0], rest, sep);
      assert rest[1..] == tail;
      assert Split(rest, sep) == [""] + parts[1..];
      assert parts[0] + "" == parts[0];
    }
  }

  /** The last piece of a join is a suffix of it, preceded by the separator
      when there are several pieces. */
  lemma {:induction false} JoinEndsWithLast(parts: seq<string>, sep: char)
    requires |parts| >= 1
    ensures var s := Join(parts, sep);
            var last := parts[|parts| - 1];
            && |last| <= |s|
            && s[|s| - |last|..] == last
            && (|parts| > 1 ==> |last| < |s| && s[|s| - |last| - 1] == sep)
    decreases |parts|
  {
    if |parts| > 1 {
      JoinEndsWithLast(parts[1..], sep);
      var tail := Join(parts[1..], sep);
      var s := Join(parts, sep);
      assert s == (parts[0] + [sep]) + tail;
      var last := parts[|parts| - 1];
      assert last == parts[1..][|parts[1..]| - 1];
      assert s[|s| - |tail|..] == tail;
      assert s[|s| - |last|..] == tail[|tail| - |last|..];
      if |parts| == 2 {
        assert tail == last;
        assert s[|s| - |last| - 1] == sep;
      } else {
        assert s[|s| - |last| - 1] == tail[|tail| - |last| - 1];
      }
    }
  }

  /** The last piece of a split is what follows the last separator. */
  lemma LastSegmentIsLast(s: string, sep: char)
    ensures IsLastSegment(LastSegment(s, sep), s, sep)
  {
    var parts := Split(s, sep);
    JoinSplit(s, sep);
    JoinEndsWithLast(parts, sep);
    if |parts| == 1 {
      assert parts[0] == Join(parts, sep);
    }
  }

  /** What follows the last separator is determined by the string. */
  lemma LastSegmentUnique(e1: string, e2: string, s: string, sep: char)
    requires IsLastSegment(e1, s, sep) && IsLastSegment(e2, s, sep)
    ensures e1 == e2
  {
  }

  /** A string without the separator is its own last segment. */
  lemma NoSeparatorIsWholeSegment(s: string, sep: char)
    requires sep !in s
    ensures LastSegment(s, sep) == s
  {
    LastSegmentIsLast(s, sep);
    assert IsLastSegment(s, s, sep);
    LastSegmentUnique(LastSegment(s, sep), s, s, sep);
  }
}

=== FILE: typemap.dfy ===
/**
 The table from file-name extension to HTTP content type that both file
 servers consult, with the content-type constants it draws on. Entries are
 kept exactly as written, quirks included (see the lemmas at the end). The
 table is a Go map literal; `Lookup` is its comma-ok index expression, so
 `None` means "not a key".
 */
module TypeMap {
  import opened Values

  const TypeAACaudio: string := "audio/aac"
  const TypeAbiWorddocument: string := "application/x-abiword"
  const TypeArchivedocument: string := "application/x-freearc"
  const TypeAVI: string := "video/x-msvideo"
  const TypeAmazonKindleeBookformat: string := "application/vnd.amazon.ebook"
  const TypeAnykindofbinarydata: string := "application/octet-stream"
  const Type2BitmapGraphics: string := "image/bmp"
  const TypeBZiparchive: string := "application/x-bzip"
  const TypeBZip2archive: string := "application/x-bzip2"
  const TypeCShellscript: string := "application/x-csh"
  const TypeCascadingStyleSheets: string := "text/css"
  const TypeCommaSeparatedvalues: string := "text/csv"
  const TypeMicrosoftWord: string := "application/msword"
  const TypeMicrosoftWordOpenXML: string := "application/vnd.openxmlformats-officedocument.wordprocessingml.document"
  const TypeMSEmbeddedOpenTypefonts: string := "application/vnd.ms-fontobject"
  const TypeElectronicpublication: string := "application/epub+zip"
  const TypeGZipCompressedArchive: string := "application/gzip"
  const TypeGraphicsInterchangeFormat: string := "image/gif"
  const TypeHyperTextMarkupLanguage: string := "text/html"
  const TypeIconformat: string := "image/vnd.microsoft.icon"
  const TypeiCalendarformat: string := "text/calendar"
  const TypeJavaArchive: string := "application/java-archive"
  const TypeJPEGimages: string := "image/jpeg"
  const TypeJavaScript: string := "text/javascript, per the following specifications:"
  const TypeJSONformat: string := "application/json"
  const TypeJSONLDformat: string := "application/ld+json"
  const TypeMusicalInstrumentDigitalInterface: string := "audio/midi"
  const TypeJavaScriptmodule: string := "text/javascript"
  const TypeMP3audio: string := "audio/mpeg"
  const TypeMPEGVideo: string := "video/mpeg"
  const TypeAppleInstallerPackage: string := "application/vnd.apple.installer+xml"
  const TypeOpenDocumentpresentationdocument: string := "application/vnd.oasis.opendocument.presentation"
  const TypeOpenDocumentspreadsheetdocument: string := "application/vnd.oasis.opendocument.spreadsheet"
  const TypeOpenDocumenttextdocument: string := "application/vnd.oasis.opendocument.text"
  const TypeOGGaudio: string := "audio/ogg"
  const TypeOGGvideo: string := "video/ogg"
  const TypeOGG: string := "application/ogg"
  const TypeOpusaudio: string := "audio/opus"
  const TypeOpenTypefont: string := "font/otf"
  const TypePortableNetworkGraphics: string := "image/png"
  const TypeAdobePortableDocumentFormat: string := "application/pdf"
  const TypeHypertextPreprocessor: string := "application/x-httpd-php"
  const TypeMicrosoftPowerPoint: string := "application/vnd.ms-powerpoint"
  const TypeMicrosoftPowerPointOpenXML: string := "application/vnd.openxmlformats-officedocument.presentationml.presentation"
  const TypeRARarchive: string := "application/vnd.rar"
  const TypeRichTextFormat: string := "application/rtf"
  const TypeBourneshellscript: string := "application/x-sh"
  const TypeScalableVectorGraphics: string := "image/svg+xml"
  const TypeSmallwebformatorAdobeFlashdocument: string := "application/x-shockwave-flash"
  const TypeTapeArchive: string := "application/x-tar"
  const TypeTaggedImageFileFormat: string := "image/tiff"
  const TypeMPEGtransportstream: string := "video/mp2t"
  const TypeTrueTypeFont: string := "font/ttf"
  const TypeText: string := "text/plain"
  const TypeMicrosoftVisio: string := "application/vnd.visio"
  const TypeWaveformAudioFormat: string := "audio/wav"
  const TypeWEBMaudio: string := "audio/webm"
  const TypeWEBMvideo: string := "video/webm"
  const TypeWEBPimage: string := "image/webp"
  const TypeWebOpenFontFormat: string := "font/woff"
  const TypeWebOpenFontFormat2: string := "font/woff2"
  const TypeXHTML: string := "application/xhtml+xml"
  const TypeMicrosoftExcel: string := "application/vnd.ms-excel"
  const TypeMicrosoftExcelOpenXML: string := "application/vnd.openxmlformats-officedocument.spreadsheetml.sheet"
  const TypeXML: string := "application/xml "
  const TypeXUL: string := "application/vnd.mozilla.xul+xml"
  const TypeZIParchive: string := "application/zip"
  const Type3GPPaudio: string := "video/3gpp"
  const Type3GPP2audio: string := "video/3gpp2"
  const Type7ziparchive: string := "application/x-7z-compressed"

  /** The table, indexed by extension: the text after the last dot, without
      the dot, compared exactly (case included). */
  function Lookup(ext: string): (t: Option<string>)
    ensures t.Some? ==> 2 <= |ext| <= 6 && '.' !in ext
  {
    match ext
    case "aac" => Some(TypeAACaudio)
    case "abw" => Some(TypeAbiWorddocument)
    case "arc" => Some(TypeArchivedocument)
    case "avi" => Some(TypeAVI)
    case "azw" => Some(TypeAmazonKindleeBookformat)
    case "bin" => Some(TypeAnykindofbinarydata)
    case "bmp" => Some(Type2BitmapGraphics)
    case "bz" => Some(TypeBZiparchive)
    case "bz2" => Some(TypeBZip2archive)
    case "csh" => Some(TypeCShellscript)
    case "css" => Some(TypeCascadingStyleSheets)
    case "csv" => Some(TypeCommaSeparatedvalues)
    case "doc" => Some(TypeMicrosoftWord)
    case "docx" => Some(TypeMicrosoftWord)
    case "eot" => Some(TypeMSEmbeddedOpenTypefonts)
    case "epub" => Some(TypeElectronicpublication)
    case "gz" => Some(TypeGZipCompressedArchive)
    case "gif" => Some(TypeGraphicsInterchangeFormat)
    case "htm" => Some(TypeHyperTextMarkupLanguage)
    case "html" => Some(TypeHyperTextMarkupLanguage)
    case "ico" => Some(TypeIconformat)
    case "ics" => Some(TypeiCalendarformat)
    case "jar" => Some(TypeJavaArchive)
    case "jpeg" => Some(TypeJPEGimages)
    case "js" => Some(TypeJavaScript)
    case "json" => Some(TypeJSONformat)
    case "jsonld" => Some(TypeJSONLDformat)
    case "mid" => Some(TypeMusicalInstrumentDigitalInterface)
    case "mjs" => Some(TypeJavaScriptmodule)
    case "mp3" => Some(TypeMP3audio)
    case "mpeg" => Some(TypeMPEGVideo)
    case "mpkg" => Some(TypeAppleInstallerPackage)
    case "odp" => Some(TypeOpenDocumentpresentationdocument)
    case "ods" => Some(TypeOpenDocumentspreadsheetdocument)
    case "odt" => Some(TypeOpenDocumenttextdocument)
    case "oga" => Some(TypeOGGaudio)
    case "ogv" => Some(TypeOGGvideo)
    case "ogx" => Some(TypeOGG)
    case "opus" => Some(TypeOpusaudio)
    case "otf" => Some(TypeOpenTypefont)
    case "png" => Some(TypePortableNetworkGraphics)
    case "pdf" => Some(TypeAdobePortableDocumentFormat)
    case "php" => Some(TypeHypertextPreprocessor)
    case "ppt" => Some(TypeMicrosoftPowerPoint)
    case "pptx" => Some(TypeMicrosoftPowerPoint)
    case "rar" => Some(TypeRARarchive)
    case "rtf" => Some(TypeRichTextFormat)
    case "sh" => Some(TypeBourneshellscript)
    case "svg" => Some(TypeScalableVectorGraphics)
    case "swf" => Some(TypeSmallwebformatorAdobeFlashdocument)
    case "tar" => Some(TypeTapeArchive)
    case "tiff" => Some(TypeTaggedImageFileFormat)
    case "ts" => Some(TypeMPEGtransportstream)
    case "ttf" => Some(TypeTrueTypeFont)
    case "txt" => Some(TypeText)
    case "vsd" => Some(TypeMicrosoftVisio)
    case "wav" => Some(TypeWaveformAudioFormat)
    case "weba" => Some(TypeWEBMaudio)
    case "webm" => Some(TypeWEBMvideo)
    case "webp" => Some(TypeWEBPimage)
    case "woff" => Some(TypeWebOpenFontFormat)
    case "woff2" => Some(TypeWebOpenFontFormat)
    case "xhtml" => Some(TypeXHTML)
    case "xls" => Some(TypeMicrosoftExcel)
    case "xlsx" => Some(TypeMicrosoftExcel)
    case "xml" => Some(TypeXML)
    case "xul" => Some(TypeXUL)
    case "zip" => Some(TypeZIParchive)
    case "3gp" => Some(Type3GPPaudio)
    case "3g2" => Some(Type3GPP2audio)
    case "7z" => Some(Type7ziparchive)
    case _ => None
  }

  /** "htm" and "html" are the same type. */
  lemma HtmlAliases()
    ensures Lookup("htm") == Lookup("html") == Some("text/html")
  {
  }

  /** The OpenXML office extensions map to the legacy binary-format types;
      no extension maps to an OpenXML type. */
  lemma OpenXmlMapsToLegacyTypes()
    ensures Lookup("docx") == Lookup("doc") == Some("application/msword")
    ensures Lookup("pptx") == Lookup("ppt") == Some("application/vnd.ms-powerpoint")
    ensures Lookup("xlsx") == Lookup("xls") == Some("application/vnd.ms-excel")
    ensures forall ext ::
              && Lookup(ext) != Some(TypeMicrosoftWordOpenXML)
              && Lookup(ext) != Some(TypeMicrosoftPowerPointOpenXML)
              && Lookup(ext) != Some(TypeMicrosoftExcelOpenXML)
  {
  }

  /** "woff2" maps to the WOFF 1 type; the WOFF 2 type is never used. */
  lemma Woff2MapsToWoff()
    ensures Lookup("woff2") == Lookup("woff") == Some("font/woff")
    ensures forall ext :: Lookup(ext) != Some(TypeWebOpenFontFormat2)
  {
  }

  /** "js" maps to a string that is not a media type, "mjs" to the real one. */
  lemma JavaScriptTypes()
    ensures Lookup("js") == Some("text/javascript, per the following specifications:")
    ensures Lookup("mjs") == Some("text/javascript")
  {
  }

  /** "xml" maps to a type with a trailing space. */
  lemma XmlTypeHasTrailingSpace()
    ensures Lookup("xml") == Some("application/xml ")
    ensures Lookup("xml").value[|Lookup("xml").value| - 1] == ' '
  {
  }

  /** Lookup is exact and case-sensitive: only "jpeg" is a key. */
  lemma JpegSpellings()
    ensures Lookup("jpeg") == Some("image/jpeg")
    ensures Lookup("jpg") == None && Lookup("JPEG") == None && Lookup("Jpeg") == None
  {
  }

  /** The 3GPP extensions carry the video types. */
  lemma ThreeGppTypes()
    ensures Lookup("3gp") == Some("video/3gpp")
    ensures Lookup("3g2") == Some("video/3gpp2")
  {
  }

  /** No extension in the table contains a slash. */
  lemma NoKeyHasSlash(ext: string)
    requires '/' in ext
    ensures Lookup(ext) == None
  {
  }
}

=== FILE: values.dfy ===
/**
 Values shared by the file servers, the cache and the load balancer: byte
 payloads, Go's nil-able error values and the signed 64-bit integers that
 Go's `int64` nanosecond clock and durations live in.
 */
module Values {

  /** A Go `[]byte`; a nil slice and an empty slice are both the empty sequence. */
  type Bytes = seq<bv8>

  /** The conventional optional value; `None` stands for Go's `nil`. */
  datatype Option<+T> = None | Some(value: T)

  /** An opaque, non-nil Go `error`; only its message is kept. */
  datatype Error = Error(message: string)

  const MinInt64: int := -0x8000_0000_0000_0000
  const MaxInt64: int := 0x7fff_ffff_ffff_ffff
  const TwoTo64: int := 0x1_0000_0000_0000_0000

  predicate IsInt64(x: int) {
    MinInt64 <= x <= MaxInt64
  }

  /** Two's-complement wrap-around of Go's `int64` arithmetic: the unique
      int64 congruent to `x` modulo 2^64. */
  function WrapInt64(x: int): (r: int)
    ensures IsInt64(r)
    ensures (x - r) % TwoTo64 == 0
    ensures IsInt64(x) ==> r == x
  {
    var r := (x - MinInt64) % TwoTo64 + MinInt64;
    assert x - r == TwoTo64 * ((x - MinInt64) / TwoTo64);
    r
  }

  /** The sum of two int64 values wraps at most once: it is corrected by one
      2^64 when it leaves the int64 range, and kept as it is otherwise. */
  lemma WrapSumOfInt64(a: int, b: int)
    requires IsInt64(a) && IsInt64(b)
    ensures WrapInt64(a + b) == if a + b > MaxInt64 then a + b - TwoTo64
                                else if a + b < MinInt64 then a + b + TwoTo64
                                else a + b
  {
  }
}
